=== FILE: README.md ===
# Smart Recipe Assistant — the per-click workflow, in Dafny

The Smart Recipe Assistant takes two kinds of input: recipe text or a food photo. It returns one of several
generated transformations: Improve, Healthy Substitute, Simplify, Generate Shopping List, Calorie
Breakdown, or Convert to Audio. This project models the logic that runs on each click:

- the **selector classifier**, which reacts to a photo being attached or removed;
- the **prompt builder** for the text model, plus the instruction text of the image pipeline;
- the **text-flow coordinator**. It picks the source text, threads the single piece of session state (the
  *last generated* text) and decides whether speech is synthesised;
- the **submit handler**, where an attached photo takes precedence over the mode;
- a **session**, which is a sequence of clicks folded over the carried text. The carried text starts empty.

The text model, the vision model and speech synthesis are function values in `Coordinator.Services`.
Each one returns `None` when the call raises. A click that raises anywhere returns no reply, so the
session keeps its carried text (`Session.Step`). Modes form a closed datatype (`Modes.Mode`) with six
choices plus `Unset`, the selector's initial and cleared value. Python renders an unset mode as `None`
inside a format string, and `Modes.Render` models that.

Modules: `Wrappers` (option type), `Texts` (occurrence, prefix and suffix facts about strings),
`Modes`, `Prompts`, `Classifier`, `Coordinator`, `Session`.

Some behaviour of the code worth stating plainly, because the model reproduces it:

- The code does not reject an unset mode. A text click with no mode sends the generic prompt
  `Task: None …` (`Session.NoStaleCalorieMode` shows this after a photo is removed).
- The code accepts an empty model answer as a result. A chain-eligible click whose answer is `""`
  therefore sets the carried text back to empty, and a later Calorie Breakdown then reads the typed text
  again.
- The code builds the generic task prompt for Convert to Audio. The speech is made from the model's
  answer.
- The code wires the second output of the image-change handler to the Output text box
  (app.py:139-144). `Classifier.SelectorUpdate.outputVisible` is that box's visibility.

## Model

| member | source | states |
|---|---|---|
| `Modes.FromRadio` | app.py:126-128 | reading a selector value back gives a mode whose selector value is that same value; a string that is no choice is refused |
| `Modes.RadioRoundTrip` | app.py:126-128 | every mode, unset included, survives the trip through the selector's value, so comparing labels as the code does is comparing modes |
| `Modes.RadioValue` | app.py:126-128 | the handler receives nothing exactly when the mode is unset; every other mode hands over its label `Modes.Label`, one of the choice strings at app.py:127, which `Modes.FromRadio` reads back as that mode (`Modes.RadioRoundTrip`) |
| `Modes.Render` | app.py:81 | a mode prints as non-empty text with no line break, and it prints as `None` exactly when it is unset |
| `Modes.RenderInjective` | app.py:81 | distinct modes print distinctly; in particular no choice prints as `None` |
| `Prompts.BuildPrompt` | app.py:63-81 | Calorie Breakdown: the calorie template head, then the source, then the closing indentation. Every other mode, Convert to Audio and unset included: the task line naming the mode, then the source, then the fixed request. Lengths are exact |
| `Prompts.OcrPrompt` | app.py:20-32 | the image instruction opens with the extraction line, then the user's hint, then the estimation template, with the length exact |
| `Prompts.CaloriePromptContents` | app.py:65-79 | every Calorie Breakdown prompt contains its source text and the trailer `TOTAL CALORIES: X kcal` |
| `Prompts.OcrPromptContents` | app.py:20-32 | the image prompt contains the user's text hint and the same trailer |
| `Prompts.SharedCalorieContract` | app.py:20-79 | the text and image calorie prompts both ask for ingredient name, calories and macros, and both carry the trailer |
| `Prompts.PromptDeterminesRequest` | app.py:63-81 | equal prompts come from equal (mode, source) pairs: the prompt fixes both the task and the text |
| `Prompts.CalorieUnlikeTask` | app.py:63-81 | a Calorie Breakdown prompt never equals the generic prompt of another mode |
| `Prompts.TaskLineDeterminesMode` | app.py:81 | two generic prompts that start the same way name the same mode |
| `Prompts.OcrPromptDeterminesHint` | app.py:20-32 | equal image prompts come from equal hints |
| `Classifier.OnImageChange` | app.py:11-17 | with a photo: value Calorie Breakdown, not interactive, Output box shown. Without: value unset, interactive, Output box hidden. Each holds in both directions |
| `Coordinator.SourceText` | app.py:84-87 | Calorie Breakdown uses the carried text when it is non-empty; with an empty carried text, or in any other mode, it uses the typed text |
| `Coordinator.RunTextMode` | app.py:83-108 | sends `Coordinator.TextPrompt`, the chosen source text built into the mode's prompt (app.py:84-89). It succeeds exactly when the text model does (and, for Convert to Audio, also speech synthesis). It shows exactly the generated text. It carries that text forward only in the four chain-eligible modes, the list at app.py:97 (`Modes.ChainEligible`), and otherwise keeps the incoming one. Audio is present if and only if the mode is Convert to Audio, and it is the synthesis of the shown text |
| `Coordinator.RunImageMode` | app.py:20-61 | the vision call gets the system text, the image prompt `Prompts.OcrPrompt` and the photo. The pipeline (reached from app.py:148-150) succeeds exactly when that call succeeds; it shows that answer, has no audio and keeps the carried text |
| `Coordinator.MainClick` | app.py:146-154 | a photo routes to the image pipeline and its absence to the text pipeline; audio appears only for a text-flow Convert to Audio; image and non-chain clicks keep the carried text |
| `Session.Step` | app.py:96-98 | the carried text after a click is the chain-written output (`Session.ChainWrite`) when a chain-eligible text click succeeds, and is unchanged otherwise, including after a failed click |
| `Session.ReplayIsLatestChained` | app.py:96-98 | the fold `Session.Replay` equals the reference `Session.LatestChained`: after any click sequence the carried text is the output of the latest chain-writing click (`Session.ChainWrite`), or the starting text if there was none |
| `Session.LatestAfterWrite` | app.py:96-98 | in the reference `Session.LatestChained`, a chain-written text persists until the next chain-writing click |
| `Session.CarriedAfterWrite` | app.py:96-98 | after a click writes `t` into the chain and no later click writes it, the fold `Session.Replay` yields `t` |
| `Session.CalorieSourceIsLatest` | app.py:84-87 | a text-flow Calorie Breakdown in a session works on the latest chain-written text when it is non-empty, and on the typed text otherwise |
| `Session.CalorieAfterChain` | app.py:84-98 | the reply of click k, `Session.ReplyAt` (the handler applied to click k and the text carried from the earlier clicks, as wired at app.py:156-160): a Calorie Breakdown after a successful Improve/Healthy Substitute/Simplify/Shopping List click with non-empty result `t`, with no chain-writing click in between, sends the calorie prompt for `t`, shows the model's answer, has no audio and keeps `t` |
| `Session.ImproveThenCalories` | app.py:84-98 | Example: a session starting from `Session.Initial`, the empty text of app.py:132. "boil egg" is improved into a non-empty text and that text is carried. A Calorie Breakdown with nothing typed then sends the calorie prompt for the improved text and shows the model's answer |
| `Session.ImageIgnoresMode` | app.py:148-150 | with a photo every mode gives the same reply; even Convert to Audio yields no audio and keeps the carried text |
| `Session.NoStaleCalorieMode` | app.py:15-17 | after the photo is removed the selector is unset, so a text click made before the user picks a mode again sends `Task: None …` and never a calorie prompt |

## Left out

- Image conversion, thumbnailing to 512×512, JPEG encoding and base64 (app.py:34-40) are library calls. The photo is an opaque type parameter.
- The Groq client and its requests and response parsing (app.py:9, 42-60, 90-94) are network I/O. They are the `text` and `vision` function values. The model names and the `data:image/png` label on JPEG bytes are not modelled.
- A model answer whose content is null is not modelled, for the text model (app.py:94) or the vision model (app.py:60). Each yields either a string or a failure.
- `Coordinator.Services`: each service is a fixed, deterministic function of its inputs. The real chat calls sample their answers, and both the chat and the speech calls can fail only some of the time. In the model, a repeated or retried identical click with the same carried text therefore gets the same answer, or fails again. No lemma here depends on a retry behaving differently.
- gTTS synthesis and the temporary `.mp3` file (app.py:103-106) are foreign I/O. They are the `speak` function value, which returns an opaque audio handle or fails.
- The Gradio layout, event wiring, the `choices=None` arguments, queueing and `demo.launch` (app.py:110-163) are UI. The wiring is reflected only in the fold over clicks, the carried text starting at `""` (app.py:132), and the unset initial mode (app.py:128).
- `Classifier.OnImageChange` treats any present photo as truthy, as a loaded image object is; Python truthiness of other values is not modelled.
- Concurrency is not modelled. Clicks are processed one at a time, as the handler runs them.

=== FILE: classifier.dfy ===
/** How attaching or removing a photo reconfigures the mode selector. */
module Classifier {
  import opened Wrappers
  import opened Modes

  /** The selector update issued on an image change: the value shown, whether the user may
      change it, and whether the Output text box is shown (the handler's second output is
      wired to that box, so removing the photo hides the Output box). */
  datatype SelectorUpdate = SelectorUpdate(value: Mode, interactive: bool, outputVisible: bool)

  /** A photo forces Calorie Breakdown and locks the selector; removing it clears and unlocks. */
  function OnImageChange<Img>(image: Option<Img>): (u: SelectorUpdate)
    ensures u.value == CalorieBreakdown <==> image.Some?
    ensures u.value == Unset <==> image.None?
    ensures u.interactive <==> image.None?
    ensures u.outputVisible <==> image.Some?
  {
    if image.Some? then SelectorUpdate(CalorieBreakdown, false, true)
    else SelectorUpdate(Unset, true, false)
  }
}

=== FILE: coordinator.dfy ===
/** One click of the submit button: choose the pipeline, build the prompt, call the services,
    thread the last generated text and decide whether speech is synthesised. */
module Coordinator {
  import opened Wrappers
  import opened Modes
  import opened Prompts

  /** The external collaborators, passed in instead of reached as globals. Each yields `None`
      when the call raises: the text model on a prompt, the vision model on its system
      instruction, prompt and photo, and speech synthesis on a text (giving an audio handle). */
  datatype Services<-Img, Audio> = Services(
    text: string -> Option<string>,
    vision: (string, string, Img) -> Option<string>,
    speak: string -> Option<Audio>)

  /** What the user submits: the typed text, the selector's mode and an optional photo. */
  datatype Request<Img> = Request(text: string, mode: Mode, image: Option<Img>)

  /** What one successful click shows and keeps: the output text, the audio handle if any,
      and the last generated text to carry into the next click. */
  datatype Reply<Audio> = Reply(display: string, audio: Option<Audio>, last: string)

  /** The text a text-mode prompt is built from: Calorie Breakdown reads the last generated
      text when there is one; every other mode reads what the user typed. */
  function SourceText(m: Mode, typed: string, last: string): (s: string)
    ensures s == typed || s == last
    ensures m != CalorieBreakdown ==> s == typed
    ensures last == "" ==> s == typed
    ensures m == CalorieBreakdown && last != "" ==> s == last
  {
    if m == CalorieBreakdown && last != "" then last else typed
  }

  /** The prompt a text-mode click sends to the text model. */
  function TextPrompt(m: Mode, typed: string, last: string): (p: string)
  {
    BuildPrompt(m, SourceText(m, typed, last))
  }

  /** The text pipeline. It fails when the text model or, for Convert to Audio, speech
      synthesis fails; otherwise it shows exactly the generated text, carries that text
      forward only for the four chain-eligible modes, and has audio only for Convert to Audio. */
  function RunTextMode<Img, Audio>(svc: Services<Img, Audio>, typed: string, m: Mode, last: string)
    : (r: Option<Reply<Audio>>)
    ensures var g := svc.text(TextPrompt(m, typed, last));
      r.Some? <==> g.Some? && (m == ConvertToAudio ==> svc.speak(g.value).Some?)
    ensures r.Some? ==> r.value.display == svc.text(TextPrompt(m, typed, last)).value
    ensures r.Some? && ChainEligible(m) ==> r.value.last == r.value.display
    ensures r.Some? && !ChainEligible(m) ==> r.value.last == last
    ensures r.Some? ==> (r.value.audio.Some? <==> m == ConvertToAudio)
    ensures r.Some? && m == ConvertToAudio ==> r.value.audio == svc.speak(r.value.display)
  {
    match svc.text(TextPrompt(m, typed, last))
    case None => None
    case Some(generated) =>
      var next := if ChainEligible(m) then generated else last;
      if m == ConvertToAudio then
        match svc.speak(generated)
        case None => None
        case Some(audio) => Some(Reply(generated, Some(audio), next))
      else
        Some(Reply(generated, None, next))
  }

  /** The image pipeline: the vision model's answer to the image prompt, built from the typed
      text as a hint; no audio, and the last generated text passes through untouched. */
  function RunImageMode<Img, Audio>(svc: Services<Img, Audio>, typed: string, image: Img, last: string)
    : (r: Option<Reply<Audio>>)
    ensures r.Some? <==> svc.vision(VisionSystem, OcrPrompt(typed), image).Some?
    ensures r.Some? ==> r.value.display == svc.vision(VisionSystem, OcrPrompt(typed), image).value
    ensures r.Some? ==> r.value.audio.None? && r.value.last == last
  {
    match svc.vision(VisionSystem, OcrPrompt(typed), image)
    case None => None
    case Some(answer) => Some(Reply(answer, None, last))
  }

  /** The submit handler: an attached photo takes precedence over the mode. */
  function MainClick<Img, Audio>(svc: Services<Img, Audio>, req: Request<Img>, last: string)
    : (r: Option<Reply<Audio>>)
    ensures req.image.Some? ==> r == RunImageMode(svc, req.text, req.image.value, last)
    ensures req.image.None? ==> r == RunTextMode(svc, req.text, req.mode, last)
    ensures r.Some? ==> (r.value.audio.Some? <==> req.image.None? && req.mode == ConvertToAudio)
    ensures r.Some? && (req.image.Some? || !ChainEligible(req.mode)) ==> r.value.last == last
  {
    match req.image
    case Some(image) => RunImageMode(svc, req.text, image, last)
    case None => RunTextMode(svc, req.text, req.mode, last)
  }
}

=== FILE: modes.dfy ===
/** The closed set of actions the user can choose on the mode selector. */
module Modes {
  import opened Wrappers
  import opened Texts

  /** The six selector choices plus `Unset`, the selector's initial and cleared value. */
  datatype Mode =
    | Improve
    | HealthySubstitute
    | Simplify
    | GenerateShoppingList
    | CalorieBreakdown
    | ConvertToAudio
    | Unset

  /** The label of a selector choice, as the user sees and the code compares it. */
  function Label(m: Mode): (s: string)
    requires m != Unset
  {
    match m
    case Improve => "Improve"
    case HealthySubstitute => "Healthy Substitute"
    case Simplify => "Simplify"
    case GenerateShoppingList => "Generate Shopping List"
    case CalorieBreakdown => "Calorie Breakdown"
    case ConvertToAudio => "Convert to Audio"
  }

  /** The value the selector hands to the click handler: a label, or nothing when unset. */
  function RadioValue(m: Mode): (v: Option<string>)
    ensures v.None? <==> m == Unset
  {
    if m == Unset then None else Some(Label(m))
  }

  /** Reads a selector value back as a mode; a string that is not a choice is refused. */
  function FromRadio(v: Option<string>): (r: Option<Mode>)
    ensures r.Some? ==> RadioValue(r.value) == v
  {
    match v
    case None => Some(Unset)
    case Some(s) =>
      if s == "Improve" then Some(Improve)
      else if s == "Healthy Substitute" then Some(HealthySubstitute)
      else if s == "Simplify" then Some(Simplify)
      else if s == "Generate Shopping List" then Some(GenerateShoppingList)
      else if s == "Calorie Breakdown" then Some(CalorieBreakdown)
      else if s == "Convert to Audio" then Some(ConvertToAudio)
      else None
  }

  /** Every mode survives the trip through the selector, so comparing labels is comparing modes. */
  lemma RadioRoundTrip(m: Mode)
    ensures FromRadio(RadioValue(m)) == Some(m)
  {
  }

  /** How a format string renders the selector value: an unset selector prints as `None`. */
  function Render(m: Mode): (s: string)
    ensures s != ""
    ensures SingleLine(s)
    ensures s == "None" <==> m == Unset
  {
    if m == Unset then "None" else Label(m)
  }

  /** Distinct modes render distinctly: no label is the word `None`. */
  lemma RenderInjective(m1: Mode, m2: Mode)
    requires Render(m1) == Render(m2)
    ensures m1 == m2
  {
  }

  /** The modes whose output becomes the reusable last generated text. */
  predicate ChainEligible(m: Mode)
  {
    m in {Improve, HealthySubstitute, Simplify, GenerateShoppingList}
  }
}

=== FILE: prompts.dfy ===
/** The instruction texts sent to the inference services. */
module Prompts {
  import opened Texts
  import opened Modes

  /** The literal closing line every calorie estimate must end with. */
  const Trailer: string := "TOTAL CALORIES: X kcal"

  /** The fixed instruction of the image pipeline's vision call. */
  const VisionSystem: string := "You are an expert food image OCR and calorie estimator."

  /** Output fields that the text and image calorie templates both ask for. */
  const IngredientField: string := "- Ingredient name"
  const CaloriesField: string := "- Calories"
  const MacrosField: string := "- Macros (Protein/Fat/Carbs)"

  /** The pieces of the text-mode calorie template, in order, around the fields above. */
  const CalorieIntro: string :=
    "\n" + "        Provide a calorie breakdown of this recipe/text below. Format strictly as:\n        "
  const CalorieQuantity: string := " (kcal)\n        - Quantity\n        "
  const CalorieEndWith: string := "\n\n        END with: "
  const CalorieOutro: string :=
    "\n\n        Make it easy to paste into MyFitnessPal / Chronometer / LoseIt/ MyNetDiary.\n\n        Text:\n        "
  const FieldBreak: string := "\n        "

  /** The text-mode calorie template, piece by piece, up to the place where the source goes. */
  const CaloriePieces: seq<string> := [
    CalorieIntro, IngredientField, FieldBreak, CaloriesField, CalorieQuantity,
    MacrosField, CalorieEndWith, Trailer, CalorieOutro]

  /** The text-mode calorie template, up to the place where the source text goes. */
  const CalorieHead: string := Join(CaloriePieces)

  /** The text-mode calorie template after the source text. */
  const CalorieTail: string := FieldBreak

  /** The pieces of the template used for every other mode. */
  const TaskHead: string := "Task: "
  const TaskMiddle: string := "\n\nRecipe:\n"
  const TaskTail: string := "\n\nProvide helpful, concise output."

  /** The pieces of the image template, in order, around the hint and the fields. */
  const OcrHead: string :=
    "\n    Extract ALL visible ingredients and estimated quantities from this food image.\n    "
  const OcrEstimate: string := "\n    Then estimate calorie breakdown based on what you see:\n        "
  const OcrQuantity: string := "\n        - Estimated quantity\n        "
  const OcrEndWith: string := "\n\n    End with: "
  const OcrOutro: string := "\n\n    Do not invent ingredients not present in the image.\n    "

  /** The image template after the user's text hint, piece by piece. */
  const OcrPieces: seq<string> := [
    OcrEstimate, IngredientField, OcrQuantity, CaloriesField, FieldBreak,
    MacrosField, OcrEndWith, Trailer, OcrOutro]

  /** The image template after the user's text hint. */
  const OcrTail: string := Join(OcrPieces)

  /** The prompt for a text-mode request: the calorie template around the source for
      Calorie Breakdown; for every other mode, including Convert to Audio and an unset
      mode, a task line naming the mode followed by the source and a fixed request. */
  function BuildPrompt(m: Mode, source: string): (p: string)
    ensures m == CalorieBreakdown ==>
      IsPrefix(CalorieHead, p) && IsSuffix(source + CalorieTail, p)
      && |p| == |CalorieHead| + |source| + |CalorieTail|
    ensures m != CalorieBreakdown ==>
      IsPrefix(TaskHead + Render(m) + TaskMiddle, p) && IsSuffix(source + TaskTail, p)
      && |p| == |TaskHead| + |Render(m)| + |TaskMiddle| + |source| + |TaskTail|
  {
    if m == CalorieBreakdown then
      ConcatAffixes(CalorieHead, source + CalorieTail);
      CalorieHead + (source + CalorieTail)
    else
      ConcatAffixes(TaskHead + Render(m) + TaskMiddle, source + TaskTail);
      TaskHead + Render(m) + TaskMiddle + (source + TaskTail)
  }

  /** The vision prompt: the image template with the user's text hint after its first line. */
  function OcrPrompt(hint: string): (p: string)
    ensures IsPrefix(OcrHead, p) && IsSuffix(hint + OcrTail, p)
    ensures |p| == |OcrHead| + |hint| + |OcrTail|
  {
    ConcatAffixes(OcrHead, hint + OcrTail);
    OcrHead + (hint + OcrTail)
  }

  /** Every Calorie Breakdown prompt carries its source text and the calorie trailer. */
  lemma CaloriePromptContents(source: string)
    ensures Contains(BuildPrompt(CalorieBreakdown, source), source)
    ensures Contains(BuildPrompt(CalorieBreakdown, source), Trailer)
  {
    ContainsFirst(source, CalorieTail);
    ContainsPrepend(CalorieHead, source + CalorieTail, source);
    JoinContains(CaloriePieces, 7);
    ContainsExtend(CalorieHead, source + CalorieTail, Trailer);
  }

  /** The vision prompt carries the user's hint and the same calorie trailer. */
  lemma OcrPromptContents(hint: string)
    ensures Contains(OcrPrompt(hint), hint)
    ensures Contains(OcrPrompt(hint), Trailer)
  {
    ContainsFirst(hint, OcrTail);
    ContainsPrepend(OcrHead, hint + OcrTail, hint);
    JoinContains(OcrPieces, 7);
    ContainsPrepend(hint, OcrTail, Trailer);
    ContainsPrepend(OcrHead, hint + OcrTail, Trailer);
  }

  /** Both calorie templates, text and image, ask for the same output fields and end with
      the same trailer, so their answers can be read the same way. */
  lemma SharedCalorieContract(source: string, hint: string)
    ensures forall f :: f in [IngredientField, CaloriesField, MacrosField, Trailer] ==>
      Contains(BuildPrompt(CalorieBreakdown, source), f) && Contains(OcrPrompt(hint), f)
  {
    forall k | k in [1, 3, 5, 7]
      ensures Contains(BuildPrompt(CalorieBreakdown, source), CaloriePieces[k])
      ensures Contains(OcrPrompt(hint), OcrPieces[k])
    {
      JoinContains(CaloriePieces, k);
      ContainsExtend(CalorieHead, source + CalorieTail, CaloriePieces[k]);
      JoinContains(OcrPieces, k);
      ContainsPrepend(hint, OcrTail, OcrPieces[k]);
      ContainsPrepend(OcrHead, hint + OcrTail, OcrPieces[k]);
    }
    assert CaloriePieces[1] == OcrPieces[1] == IngredientField;
    assert CaloriePieces[3] == OcrPieces[3] == CaloriesField;
    assert CaloriePieces[5] == OcrPieces[5] == MacrosField;
    assert CaloriePieces[7] == OcrPieces[7] == Trailer;
  }

  /** The prompt determines both the mode and the source text it was built from: no two
      different requests send the same instruction to the text model. */
  lemma PromptDeterminesRequest(m1: Mode, s1: string, m2: Mode, s2: string)
    requires BuildPrompt(m1, s1) == BuildPrompt(m2, s2)
    ensures m1 == m2 && s1 == s2
  {
    var p := BuildPrompt(m1, s1);
    if m1 == CalorieBreakdown && m2 == CalorieBreakdown {
      Between(CalorieHead, s1, CalorieTail, p);
      Between(CalorieHead, s2, CalorieTail, p);
    } else if m1 == CalorieBreakdown || m2 == CalorieBreakdown {
      if m1 == CalorieBreakdown {
        CalorieUnlikeTask(s1, m2, s2);
      } else {
        CalorieUnlikeTask(s2, m1, s1);
      }
    } else {
      TaskLineDeterminesMode(m1, m2, p);
      Between(TaskHead + Render(m1) + TaskMiddle, s1, TaskTail, p);
      Between(TaskHead + Render(m2) + TaskMiddle, s2, TaskTail, p);
    }
  }

  /** A calorie prompt opens with a line break, every other prompt with its task line. */
  lemma CalorieUnlikeTask(s: string, m: Mode, s': string)
    requires m != CalorieBreakdown
    ensures BuildPrompt(CalorieBreakdown, s) != BuildPrompt(m, s')
  {
    var p, q := BuildPrompt(CalorieBreakdown, s), BuildPrompt(m, s');
    PrefixAt(CalorieIntro, CalorieHead, 0);
    PrefixAt(CalorieHead, p, 0);
    PrefixAt(TaskHead + Render(m) + TaskMiddle, q, 0);
    assert p[0] != q[0];
  }

  /** The task line of a generic prompt names exactly one mode: the name runs up to the first
      line break, because no mode's rendering contains one. */
  lemma TaskLineDeterminesMode(m1: Mode, m2: Mode, p: string)
    requires IsPrefix(TaskHead + Render(m1) + TaskMiddle, p)
    requires IsPrefix(TaskHead + Render(m2) + TaskMiddle, p)
    ensures m1 == m2
  {
    var q := p[|TaskHead|..];
    NameLine(Render(m1), p);
    NameLine(Render(m2), p);
    FirstLineUnique(Render(m1), Render(m2), q);
    RenderInjective(m1, m2);
  }

  /** After the task head, a generic prompt holds the mode's name and a line break. */
  lemma NameLine(n: string, p: string)
    requires IsPrefix(TaskHead + n + TaskMiddle, p)
    ensures IsPrefix(n + "\n", p[|TaskHead|..])
  {
    var h, q := |TaskHead|, p[|TaskHead|..];
    forall i | 0 <= i < |n| + 1
      ensures q[i] == (n + "\n")[i]
    {
      PrefixAt(TaskHead + n + TaskMiddle, p, h + i);
      assert q[i] == p[h + i];
    }
    assert q[..|n| + 1] == n + "\n";
  }

  /** The vision prompt determines the hint it was built from. */
  lemma OcrPromptDeterminesHint(h1: string, h2: string)
    requires OcrPrompt(h1) == OcrPrompt(h2)
    ensures h1 == h2
  {
    Between(OcrHead, h1, OcrTail, OcrPrompt(h1));
    Between(OcrHead, h2, OcrTail, OcrPrompt(h2));
  }
}

=== FILE: session.dfy ===
/** A session: a sequence of clicks threading the last generated text, which starts empty. */
module Session {
  import opened Wrappers
  import opened Modes
  import opened Prompts
  import opened Classifier
  import opened Coordinator

  /** The last generated text when a session starts. */
  const Initial: string := ""

  /** The text a click writes into the chain, if any: only a text-mode click in a
      chain-eligible mode whose text-model call succeeds writes, and it writes the
      generated text. Such a click's prompt never depends on the carried text. */
  function ChainWrite<Img, Audio>(svc: Services<Img, Audio>, req: Request<Img>): (w: Option<string>)
  {
    if req.image.None? && ChainEligible(req.mode) then svc.text(BuildPrompt(req.mode, req.text))
    else None
  }

  /** The last generated text after one click; a click that raises leaves it as it was. */
  function Step<Img, Audio>(svc: Services<Img, Audio>, last: string, req: Request<Img>): (next: string)
    ensures ChainWrite(svc, req).Some? ==> next == ChainWrite(svc, req).value
    ensures ChainWrite(svc, req).None? ==> next == last
    ensures MainClick(svc, req, last).None? ==> next == last
  {
    match MainClick(svc, req, last)
    case None => last
    case Some(reply) => reply.last
  }

  /** The last generated text after a sequence of clicks, one after another: the text after
      all but the last click, stepped through the last one. */
  function Replay<Img, Audio>(svc: Services<Img, Audio>, start: string, reqs: seq<Request<Img>>): (last: string)
    decreases |reqs|
  {
    if reqs == [] then start
    else Step(svc, Replay(svc, start, reqs[..|reqs| - 1]), reqs[|reqs| - 1])
  }

  /** What the k-th click of a sequence returns: the handler applied to the k-th request and
      the text carried by the clicks before it. */
  function ReplyAt<Img, Audio>(svc: Services<Img, Audio>, start: string, reqs: seq<Request<Img>>, k: nat)
    : (r: Option<Reply<Audio>>)
    requires k < |reqs|
  {
    MainClick(svc, reqs[k], Replay(svc, start, reqs[..k]))
  }

  /** Reference definition of the carried text: the output of the latest click that wrote
      the chain, or the starting text if none did. */
  function LatestChained<Img, Audio>(svc: Services<Img, Audio>, start: string, reqs: seq<Request<Img>>)
    : (latest: string)
    decreases |reqs|
  {
    if reqs == [] then start
    else match ChainWrite(svc, reqs[|reqs| - 1])
      case Some(t) => t
      case None => LatestChained(svc, start, reqs[..|reqs| - 1])
  }

  /** The carried text is always the output of the latest chain-writing click: it is changed
      by nothing else, in particular by no image, Calorie Breakdown, Convert to Audio, unset
      or failed click. */
  lemma {:induction false} ReplayIsLatestChained<Img, Audio>(
    svc: Services<Img, Audio>, start: string, reqs: seq<Request<Img>>)
    ensures Replay(svc, start, reqs) == LatestChained(svc, start, reqs)
    decreases |reqs|
  {
    if reqs != [] {
      ReplayIsLatestChained(svc, start, reqs[..|reqs| - 1]);
    }
  }

  /** Once a click writes `t` into the chain, the carried text stays `t` until the next
      chain-writing click. */
  lemma {:induction false} LatestAfterWrite<Img, Audio>(
    svc: Services<Img, Audio>, start: string, reqs: seq<Request<Img>>, j: nat, t: string)
    requires j < |reqs| && ChainWrite(svc, reqs[j]) == Some(t)
    requires forall r :: r in reqs[j + 1..] ==> ChainWrite(svc, r).None?
    ensures LatestChained(svc, start, reqs) == t
    decreases |reqs|
  {
    if j < |reqs| - 1 {
      var init := reqs[..|reqs| - 1];
      assert reqs[j + 1..] == init[j + 1..] + [reqs[|reqs| - 1]];
      LatestAfterWrite(svc, start, init, j, t);
    }
  }

  /** A text-mode Calorie Breakdown click works on the latest chain-written text when that
      text is non-empty, and on what the user typed otherwise. */
  lemma {:induction false} CalorieSourceIsLatest<Img, Audio>(
    svc: Services<Img, Audio>, start: string, reqs: seq<Request<Img>>, k: nat)
    requires k < |reqs| && reqs[k].image.None? && reqs[k].mode == CalorieBreakdown
    ensures LatestChained(svc, start, reqs[..k]) != "" ==>
      SourceText(CalorieBreakdown, reqs[k].text, Replay(svc, start, reqs[..k]))
      == LatestChained(svc, start, reqs[..k])
    ensures LatestChained(svc, start, reqs[..k]) == "" ==>
      SourceText(CalorieBreakdown, reqs[k].text, Replay(svc, start, reqs[..k])) == reqs[k].text
  {
    ReplayIsLatestChained(svc, start, reqs[..k]);
  }

  /** After a click writes `t` into the chain, and no chain-writing click follows, the
      carried text is `t`. */
  lemma {:induction false} CarriedAfterWrite<Img, Audio>(
    svc: Services<Img, Audio>, start: string, reqs: seq<Request<Img>>, j: nat, t: string)
    requires j < |reqs| && ChainWrite(svc, reqs[j]) == Some(t)
    requires forall r :: r in reqs[j + 1..] ==> ChainWrite(svc, r).None?
    ensures Replay(svc, start, reqs) == t
  {
    LatestAfterWrite(svc, start, reqs, j, t);
    ReplayIsLatestChained(svc, start, reqs);
  }

  /** A Calorie Breakdown after a successful Improve, Healthy Substitute, Simplify or Generate
      Shopping List click with a non-empty result, with no chain-writing click in between,
      sends that result to the text model, whatever the user typed; it shows the model's
      answer, has no audio and leaves the chain at that result. */
  lemma {:induction false} CalorieAfterChain<Img, Audio>(
    svc: Services<Img, Audio>, start: string, reqs: seq<Request<Img>>, j: nat, k: nat, t: string)
    requires j < k < |reqs|
    requires ChainWrite(svc, reqs[j]) == Some(t) && t != ""
    requires forall r :: r in reqs[j + 1..k] ==> ChainWrite(svc, r).None?
    requires reqs[k].image.None? && reqs[k].mode == CalorieBreakdown
    ensures TextPrompt(CalorieBreakdown, reqs[k].text, Replay(svc, start, reqs[..k]))
      == BuildPrompt(CalorieBreakdown, t)
    ensures ReplyAt(svc, start, reqs, k).Some? <==> svc.text(BuildPrompt(CalorieBreakdown, t)).Some?
    ensures ReplyAt(svc, start, reqs, k).Some? ==>
      ReplyAt(svc, start, reqs, k).value == Reply(svc.text(BuildPrompt(CalorieBreakdown, t)).value, None, t)
  {
    assert reqs[..k][j + 1..] == reqs[j + 1..k];
    CarriedAfterWrite(svc, start, reqs[..k], j, t);
  }

  /** Worked example: "boil egg" improved into a non-empty text, then Calorie Breakdown with
      nothing typed, estimates the improved text. */
  lemma ImproveThenCalories<Img, Audio>(
    svc: Services<Img, Audio>, improved: string, reqs: seq<Request<Img>>)
    requires reqs == [Request("boil egg", Improve, None), Request("", CalorieBreakdown, None)]
    requires svc.text(BuildPrompt(Improve, "boil egg")) == Some(improved) && improved != ""
    ensures ReplyAt(svc, Initial, reqs, 0) == Some(Reply(improved, None, improved))
    ensures ReplyAt(svc, Initial, reqs, 1).Some? <==> svc.text(BuildPrompt(CalorieBreakdown, improved)).Some?
    ensures ReplyAt(svc, Initial, reqs, 1).Some? ==>
      ReplyAt(svc, Initial, reqs, 1).value.display == svc.text(BuildPrompt(CalorieBreakdown, improved)).value
  {
    CalorieAfterChain(svc, Initial, reqs, 0, 1, improved);
  }

  /** With a photo attached the mode is ignored: every mode gives the same reply, so no
      audio and an unchanged chain even for Convert to Audio. */
  lemma ImageIgnoresMode<Img, Audio>(
    svc: Services<Img, Audio>, typed: string, image: Img, m1: Mode, m2: Mode, last: string)
    ensures MainClick(svc, Request(typed, m1, Some(image)), last)
         == MainClick(svc, Request(typed, m2, Some(image)), last)
    ensures var r := MainClick(svc, Request(typed, ConvertToAudio, Some(image)), last);
      r.Some? ==> r.value.audio.None? && r.value.last == last
  {
  }

  /** Removing the photo resets the selector, so a following click cannot run a stale
      Calorie Breakdown: it sends the generic task prompt for an unset mode instead. */
  lemma NoStaleCalorieMode<Img>(typed: string, last: string, source: string)
    ensures var m := OnImageChange<Img>(None).value;
      && TextPrompt(m, typed, last) != BuildPrompt(CalorieBreakdown, source)
      && TextPrompt(m, typed, last) == TaskHead + "None" + TaskMiddle + typed + TaskTail
  {
    CalorieUnlikeTask(source, Unset, typed);
  }
}

=== FILE: texts.dfy ===
/** Facts about strings (sequences of characters) that the prompt templates need. */
module Texts {

  /** `t` occurs in `s` starting at index `i`. */
  predicate OccursAt(s: string, t: string, i: int)
  {
    0 <= i <= |s| - |t| && s[i..i + |t|] == t
  }

  /** `t` occurs in `s` as a contiguous piece. */
  ghost predicate Contains(s: string, t: string)
  {
    exists i :: OccursAt(s, t, i)
  }

  /** `a` is a prefix of `s`. */
  predicate IsPrefix(a: string, s: string)
  {
    |a| <= |s| && s[..|a|] == a
  }

  /** `b` is a suffix of `s`. */
  predicate IsSuffix(b: string, s: string)
  {
    |b| <= |s| && s[|s| - |b|..] == b
  }

  /** A concatenation starts with its left part and ends with its right part. */
  lemma ConcatAffixes(a: string, b: string)
    ensures IsPrefix(a, a + b) && IsSuffix(b, a + b)
  {
    assert (a + b)[..|a|] == a;
    assert (a + b)[|a + b| - |b|..] == b;
  }

  /** What a string holds between a known prefix and a known suffix. */
  lemma Between(a: string, x: string, b: string, s: string)
    requires IsPrefix(a, s) && IsSuffix(x + b, s) && |s| == |a| + |x| + |b|
    ensures x == s[|a|..|s| - |b|]
  {
    assert s[|a|..|s| - |b|] == s[|s| - |x + b|..][..|x|];
    assert (x + b)[..|x|] == x;
  }

  /** A string has no line break in it. */
  predicate SingleLine(s: string)
  {
    forall i :: 0 <= i < |s| ==> s[i] != '\n'
  }

  /** Occurrence survives appending text. */
  lemma ContainsExtend(s: string, b: string, t: string)
    requires Contains(s, t)
    ensures Contains(s + b, t)
  {
    var i :| OccursAt(s, t, i);
    assert (s + b)[i..i + |t|] == s[i..i + |t|];
    assert OccursAt(s + b, t, i);
  }

  /** Occurrence survives prepending text. */
  lemma ContainsPrepend(a: string, s: string, t: string)
    requires Contains(s, t)
    ensures Contains(a + s, t)
  {
    var i :| OccursAt(s, t, i);
    assert (a + s)[|a| + i..|a| + i + |t|] == s[i..i + |t|];
    assert OccursAt(a + s, t, |a| + i);
  }

  /** A string contains what it starts with. */
  lemma ContainsFirst(t: string, b: string)
    ensures Contains(t + b, t)
  {
    assert (t + b)[0..|t|] == t;
    assert OccursAt(t + b, t, 0);
  }

  /** The pieces of a template written one after another. */
  function Join(pieces: seq<string>): (s: string)
    ensures |pieces| > 0 ==> IsPrefix(pieces[0], s)
  {
    if pieces == [] then "" else pieces[0] + Join(pieces[1..])
  }

  /** Every piece of a template occurs in the joined text. */
  lemma {:induction false} JoinContains(pieces: seq<string>, k: nat)
    requires k < |pieces|
    ensures Contains(Join(pieces), pieces[k])
  {
    if k == 0 {
      ContainsFirst(pieces[0], Join(pieces[1..]));
    } else {
      JoinContains(pieces[1..], k - 1);
      ContainsPrepend(pieces[0], Join(pieces[1..]), pieces[k]);
    }
  }

  /** A prefix fixes the characters it covers. */
  lemma PrefixAt(a: string, s: string, i: nat)
    requires IsPrefix(a, s) && i < |a|
    ensures s[i] == a[i]
  {
    assert s[..|a|][i] == s[i];
  }

  /** A single line followed by a line break is fixed by the text it starts: the line
      ends at the first break. */
  lemma FirstLineUnique(n1: string, n2: string, s: string)
    requires SingleLine(n1) && SingleLine(n2)
    requires IsPrefix(n1 + "\n", s) && IsPrefix(n2 + "\n", s)
    ensures n1 == n2
  {
    if |n1| < |n2| {
      PrefixAt(n1 + "\n", s, |n1|);
      PrefixAt(n2 + "\n", s, |n1|);
    } else if |n2| < |n1| {
      PrefixAt(n1 + "\n", s, |n2|);
      PrefixAt(n2 + "\n", s, |n2|);
    } else {
      forall i | 0 <= i < |n1| ensures n1[i] == n2[i] {
        PrefixAt(n1 + "\n", s, i);
        PrefixAt(n2 + "\n", s, i);
      }
    }
  }
}

=== FILE: wrappers.dfy ===
/** The option type for a call that can raise. */
module Wrappers {

  /** `None` stands for a call that raised; `Some(v)` for one that returned `v`. */
  datatype Option<+T> = None | Some(value: T)
}
